=== FILE: README.md ===
# kino audio engine: beat scheduler and loop playback, modelled in Dafny

This project models the core of kino's audio engine, `web/src/AudioEngine.js`.
The core is two coupled state machines:

- **Loop** (`ae.Loop`) is one musical part. It has an attack clip (`init`), a body clip (`loop`) and an ordered list of tail entries. Each tail entry is a one-shot clip gated to a list of beats. On every `play(beat)` the loop decides which clip sounds. The choice depends on its `activated`, `initPlayed` and `playTail` flags. The loop also carries a gain (`mul`) and the default it returns to on reset (`defaultMul`).
- **Conductor** (`ae.Conductor`) owns the metronome, the current section and the pending section. A section is a tempo, a time signature, a list of transition beats and a player list. On every pulse, `metroFunction(count)` reduces the count to a beat. It then does one of four things: commit a pending transition, fire the downbeat and play every player, fire an upbeat, or do nothing.

Every operation is a pure function from a state to a new state plus an ordered trace of events. The modules are:

- `Optional`: the `Option` datatype.
- `Clips`: an audio clip is an abstract record `{loaded, playing, rewound, mul}`. `rewound` holds while the playback position is known to be 0.
- `Loops`: the Loop record and its operations.
- `Conductors`: the Conductor record, its fan-out helpers and the beat handler. Loops live in a map keyed by id. The current and pending player lists are sequences of ids, so the two lists can share loops, as they do by default.

The trace records a clip being played and triggered (`Bang(id, role)`), the downbeat, upbeat and stop callbacks firing, and the metronome stopping and starting. The audio library, the timer library and the bodies of the user callbacks are not modelled.

One behaviour is easy to misread. A transition beat other than 0 with no transition pending fires neither callback and plays nothing (`web/src/AudioEngine.js:50-86`). It is not treated as an upbeat. `Conductors.MetroFunction` states this.

## Model

| member | source | states |
|---|---|---|
| Loops.NewLoop | web/src/AudioEngine.js:228-249 | A new loop is activated, has not played its attack, is not in tail mode, and has its gain equal to its default gain. The default gain is 1 when none is supplied. |
| Loops.ResetMatchesConstructor | web/src/AudioEngine.js:236-247 | A reset loop carries exactly the flags of a freshly constructed loop with the same default gain. |
| Loops.FirstTail | web/src/AudioEngine.js:258-266 | The chosen tail entry is the first in list order whose beats contain the beat. The result is None exactly when no entry contains it. |
| Loops.Play | web/src/AudioEngine.js:252-282 | A deactivated loop changes nothing and plays nothing. In tail mode the first matching tail entry plays, or nothing plays. There is no fall-through to attack or body, and no flag changes. Otherwise the attack plays if it has not been played yet, and `initPlayed` becomes true; after that the body plays. Only the chosen clip is started. |
| Loops.PlayTailTwice | web/src/AudioEngine.js:252-266 | In tail mode, a second `play` on the same beat sounds the same tail clip again and leaves the loop exactly as the first one did. |
| Loops.AttackThenBody | web/src/AudioEngine.js:271-281 | The first play after a reset sounds the attack. The next play sounds the body. |
| Loops.Pause | web/src/AudioEngine.js:284-291 | Every clip (attack, body, every tail) is stopped, and `initPlayed` becomes false. `activated`, `playTail`, the gains and the clip positions are unchanged. |
| Loops.PauseReplaysAttack | web/src/AudioEngine.js:284-291 | After a pause, an activated loop outside tail mode plays its attack again. |
| Loops.PauseIdempotent | web/src/AudioEngine.js:284-291 | Pausing twice equals pausing once. |
| Loops.Reset | web/src/AudioEngine.js:294-310 | Every clip is rewound and set to the default gain. After reset the loop is activated, `initPlayed` and `playTail` are false, and its gain is the default. Clips are neither stopped nor started, and their loaded state is unchanged. |
| Loops.ResetIdempotent | web/src/AudioEngine.js:294-310 | Resetting twice equals resetting once. |
| Loops.On | web/src/AudioEngine.js:313-315 | Sets `activated`. No other flag or clip changes. |
| Loops.Off | web/src/AudioEngine.js:316-318 | Clears `activated`. No other flag or clip changes. |
| Loops.OffSilencesOnRestores | web/src/AudioEngine.js:252-255 | A loop that is off plays nothing and stays as it is. Turning an active loop off and back on restores it exactly. |
| Loops.SetMul | web/src/AudioEngine.js:321-328 | The value, unclamped, becomes the gain of the loop and of its attack, body and every tail clip. Nothing else changes. |
| Loops.Mute | web/src/AudioEngine.js:329-335 | The gain of the loop and of every clip becomes 0. Nothing else changes. |
| Loops.Unmute | web/src/AudioEngine.js:337-341 | The gain of the loop and of every clip becomes 1. Nothing else changes. |
| Loops.PlayKeepsLoaded | web/src/AudioEngine.js:252-282 | Playing never changes whether a loop counts as fully loaded. |
| Conductors.Beat | web/src/AudioEngine.js:47 | For a non-zero time signature, the beat lies in `[0, abs(timesig))`. For a non-negative count, JavaScript's truncating remainder equals the Euclidean one. A zero time signature gives no beat, which models NaN. |
| Conductors.BeatCycles | web/src/AudioEngine.js:47 | The beat repeats every `timesig` pulses. Counts in the first cycle are their own beats. |
| Conductors.NewConductor | web/src/AudioEngine.js:23-44 | The pending section starts equal to the current one. No transition is pending. `all_loaded` is false. The metronome is built but not running, at count 0. The loops are exactly the ones passed in. |
| Conductors.RequestTransition | web/src/AudioEngine.js:33-38 | Assigning the `next*` fields and `toNext` stores the pending section. The pending players may include loops built for it, under ids not yet in use; these join the known loops, and every existing loop is unchanged. The current section, `all_loaded` and the metronome are unchanged. |
| Conductors.LastRequestWins | web/src/AudioEngine.js:33-38 | A second request before the commit overwrites the pending section of the first. Nothing else about the conductor changes, and the loops built for both requests stay known. |
| Conductors.Fan | web/src/AudioEngine.js:131-143 | Sending a pause, reset or tail-mode command to a player list applies it to every listed loop, even a loop listed twice, exactly once in effect. Unlisted loops are unchanged. |
| Conductors.PlayAll | web/src/AudioEngine.js:124-128 | Playing a player list in order emits only `Bang`s of listed loops, at most one per entry. It leaves unlisted loops untouched. Each loop keeps its activation, tail mode and tail beats, and in tail mode also its attack flag. |
| Conductors.PlayAllDistinct | web/src/AudioEngine.js:124-128 | For a player list without repeats, every listed loop ends in exactly the state its own `play(beat)` gives. The bangs are those plays' clips, in player order. |
| Conductors.FreshLoopsPlayAttacks | web/src/AudioEngine.js:124-128 | Playing distinct loops that are active, outside tail mode and have not yet played their attack sounds exactly one attack per loop, in player order. |
| Conductors.PlayAllInTailMode | web/src/AudioEngine.js:252-266 | When every listed loop is in tail mode, the bangs are exactly each active loop's first matching tail entry, in player order. Every listed loop, even one listed twice, ends in the state one `play(beat)` gives it. |
| Conductors.PlayPlayers | web/src/AudioEngine.js:124-128 | Only the current players change, and only `Bang`s of current players are emitted. Without repeated players, each player gets exactly its own `play(beat)`, and the bangs are those plays' clips in player order. A player listed k times ends as after k `play(beat)` calls in a row. |
| Conductors.PlayAllRepeats | web/src/AudioEngine.js:124-128 | Playing a list in order leaves each listed loop, repeats included, in the state of as many `play(beat)` calls in a row as it is listed. |
| Conductors.PausePlayers | web/src/AudioEngine.js:131-136 | Every current player is paused. Nothing else changes. |
| Conductors.ResetPlayers | web/src/AudioEngine.js:139-143 | Every current player is reset. Nothing else changes. |
| Conductors.ToggleTail | web/src/AudioEngine.js:153-157 | Every current player gets `playTail` set to the given value. Nothing else changes. |
| Conductors.DownbeatStep | web/src/AudioEngine.js:81-91 | The downbeat action fires the downbeat callback first and never the upbeat. Only the loops change. Without repeated players, the callback is followed by exactly each player's own clip on beat 0, in player order. Every player ends as after one `play(0)` per listing, and every other loop is untouched. |
| Conductors.MetroFunction | web/src/AudioEngine.js:46-98 | If no commit takes the pulse, the downbeat callback fires exactly on beat 0, followed by playing every current player on 0. The upbeat fires exactly when the beat is neither 0 nor a transition beat, and then nothing else happens. A non-zero transition beat with nothing pending does nothing. Only a commit touches the section, the request flag or the metronome. `all_loaded` never changes. |
| Conductors.PlayTails | web/src/AudioEngine.js:56-59 | The outgoing half of a commit plays only the outgoing players' tails for that beat, in player order. It fires no callback and touches only the outgoing players. |
| Conductors.PlayTailsLoops | web/src/AudioEngine.js:56-59 | After the outgoing half, each outgoing player is in the state given by pausing it, setting tail mode and playing it once on the beat. This holds even for a player listed twice. |
| Conductors.SwapIn | web/src/AudioEngine.js:60-77 | The incoming half makes the pending section current, clears the request and leaves the metronome running at count 0. It resets exactly the incoming players and leaves every other loop alone. |
| Conductors.Commit | web/src/AudioEngine.js:54-79 | Committing swaps in the pending section as a whole and clears the request. The metronome ends running at count 0, every incoming player is reset, and neither the downbeat nor the upbeat fires. `all_loaded` and the set of loops are unchanged. |
| Conductors.CommitLoops | web/src/AudioEngine.js:54-79 | On a commit, an incoming loop that was not outgoing becomes the reset of its old state. An outgoing loop that is not incoming is paused, put in tail mode and played once on the transition beat. A loop in both lists, which is every player when the request kept the players, gets that same last tail play and is then reset. Every other loop is untouched. |
| Conductors.CommitIsAtomic | web/src/AudioEngine.js:54-79 | After a commit, bpm, time signature, transition beats and players all equal the pending values. `toNext` is false. The metronome is running at count 0. Every incoming player is in the reset state. |
| Conductors.CommitOrdering | web/src/AudioEngine.js:54-79 | The only clips a commit plays are the outgoing players' tails for that exact beat, in player order. They play before the metronome stops and the section swaps, and no downbeat fires. Outgoing players that are not also incoming are left in tail mode with the attack flag cleared, in exactly the state of one tail-mode play after a pause. |
| Conductors.FirstDownbeatPlaysAttacks | web/src/AudioEngine.js:81-91 | On the first downbeat after the players were reset (as `start` and a commit leave them), the downbeat callback fires and then every distinct player sounds its attack, in player order, and nothing else sounds. |
| Conductors.FirstUnloaded | web/src/AudioEngine.js:166-193 | Gives the first current player with an unloaded attack, body or tail clip. Every earlier player is fully loaded. The result is None exactly when every player is fully loaded. |
| Conductors.ScanLoaded | web/src/AudioEngine.js:166-193 | The source's nested scan (players in order, attack and body, then tails in order, returning at the first unloaded clip) finds the same player as the reference `FirstUnloaded`. |
| Conductors.CheckAllLoaded | web/src/AudioEngine.js:160-199 | As written, the load check never changes the conductor. It either returns early or stores `false` where the flag is already false. |
| Conductors.Start | web/src/AudioEngine.js:104-114 | If `all_loaded` was false, `start` changes nothing and emits nothing. If it was true, the metronome starts and every current player becomes the reset of its old state. The sections, the request, the count, `all_loaded` and every other loop are unchanged. |
| Conductors.FreshConductorNeverStarts | web/src/AudioEngine.js:104-114 | A freshly constructed conductor does not start, even when every player is fully loaded. |
| Conductors.CheckAllLoadedIntended | web/src/AudioEngine.js:160-199 | With a completed scan storing `true`, the flag becomes true exactly when every current player is fully loaded. A flag that is already true stays true. |
| Conductors.StartIntended | web/src/AudioEngine.js:104-114 | Over the intended load check, `start` resets the players and runs the metronome as soon as every current player is loaded. It refuses, changing nothing, while one is not. When it proceeds, `all_loaded` becomes true, each player becomes the reset of its old state, and nothing else changes except that the metronome runs. |
| Conductors.Stop | web/src/AudioEngine.js:117-121 | Every current player is paused and the metronome stops. The trace is the metronome stop, then the stop callback. The sections, the request, the count, `all_loaded` and every other loop are unchanged. |
| Conductors.StopIdempotent | web/src/AudioEngine.js:117-121 | Stopping twice leaves the same state as stopping once. |

## Left out

- `fadeOut`, `fadeIn` and `fadeOutPlayers` (`web/src/AudioEngine.js:145-150, 343-375`): timer-driven floating-point gain ramps that race with each other and with `reset`. `fadeOutPlayers` is not called by the beat handler.
- `ae.btom` (`web/src/AudioEngine.js:405-408`): a floating-point tempo conversion that nothing in the file uses.
- `ae.to_audio` and `ae.to_loop`, and the asynchronous loading behind them: clips arrive as abstract records whose `loaded` flag the environment sets.
- Clip presence: the constructor always creates the attack, body and tail clips. The presence part of the load test is therefore always true, and only `loaded` is modelled. URL fields are not modelled.
- The metronome's interval string and the construction of a new timer object: tempo stays a number. Rebuilding the metronome is modelled as "stop, count 0, start".
- The timer's own count increment between pulses: `MetroFunction` takes the count as its argument, as the source's callback does.
- Whether the timer library's `start` rewinds its count is not visible. `Start` leaves the count unchanged.
- `console.log` output, including the "invalid beat" and "not yet all loaded" messages. The callback bodies are not modelled either; their firing is a trace event.
- Conductors.Beat: models only integer counts and time signatures. A fractional time signature would give a fractional beat in JavaScript.
- Loops are values in a map keyed by id, and a section's players are a list of ids. Building a loop object is modelled by `Loops.NewLoop`. The conductor receives the loops its players name: the constructor takes them all, and a transition request may add new ones under ids not yet in use. Clip creation is left to the environment.
- The loop constructor stores the caller's tail arrays by reference (`web/src/AudioEngine.js:232-235`). A caller that later changes those arrays changes the loop. A second loop built from the same array overwrites the `audio` of the first loop's entries (`web/src/AudioEngine.js:233-235`), so the two loops then share tail clips. In the model each `Loop` owns its clips as values.
- `play` assigns the undeclared variable `tail` (`web/src/AudioEngine.js:259`), which creates or overwrites a global. Nothing outside `play` reads it, so the model keeps the value local.
- Conductors.PlayAllDistinct: states the exact bangs only for a duplicate-free player list. A loop listed twice is played twice in a row. What the two plays sound depends on its state: an active loop outside tail mode whose attack is still due sounds the attack and then the body, one whose attack was already played sounds the body twice, a loop in tail mode sounds the same tail entry twice or nothing, and an inactive loop sounds nothing. `Conductors.PlayAllRepeats` states the loop's final state in every case.
- Conductors.PlayPlayers: for a player list with repeats, the order of the bangs is bounded only by who may bang and how many bangs there are. Spelling it out would repeat the function's own loop. The final state of every loop is stated exactly.
- Conductors.PlayAll: the same bound on bang order for a list with repeats, for the same reason. `Conductors.PlayAllRepeats` states every loop's final state.
- Conductors.DownbeatStep: the same bound on bang order when players repeat, since the step plays the players as `Conductors.PlayPlayers` does. The players' final states are stated exactly.
- Loops.NewLoop: `defaultMul` is either supplied or absent. An explicit `null`, which the source would store as is, is not modelled.

## Findings

| source | as written | input that shows it | evidently intended | confidence | as-written member | corrected member |
|---|---|---|---|---|---|---|
| web/src/AudioEngine.js:160-199 | The load check stores only `false`, and the assignment of `true` after a completed scan is commented out. `all_loaded` therefore stays at its initial `false` (line 30), and `start` never resets the players or starts the metronome. | A freshly constructed conductor whose every attack, body and tail clip has loaded, followed by `start()`. | A completed scan stores `true`, so that `start` proceeds once everything has loaded. | medium, not executed: code outside this file may assign `all_loaded` directly | Conductors.FreshConductorNeverStarts | Conductors.StartIntended |

=== FILE: clips.dfy ===
/** An abstract audio clip handle. The audio library that decodes and plays
    sound is outside the model; a clip records only what the engine has
    asked of it and whether its asynchronous load has completed. */
module Clips {

  /** `rewound` holds while the playback position is known to be at the
      start: a rewind sets it and playing from the current position clears it.
      `mul` is the clip's gain multiplier. */
  datatype Clip = Clip(loaded: bool, playing: bool, rewound: bool, mul: real)

  /** Start playback from the current position (and fire the clip's trigger). */
  function Play(c: Clip): (r: Clip)
    ensures r.playing && !r.rewound
    ensures r.loaded == c.loaded && r.mul == c.mul
  {
    c.(playing := true, rewound := false)
  }

  /** Stop playback, keeping the position; pausing a stopped clip is harmless. */
  function Pause(c: Clip): (r: Clip)
    ensures !r.playing
    ensures r.loaded == c.loaded && r.rewound == c.rewound && r.mul == c.mul
  {
    c.(playing := false)
  }

  /** Set the playback position back to zero. */
  function Rewind(c: Clip): (r: Clip)
    ensures r.rewound
    ensures r.loaded == c.loaded && r.playing == c.playing && r.mul == c.mul
  {
    c.(rewound := true)
  }

  /** Set the gain multiplier; any value is passed through unclamped. */
  function SetMul(c: Clip, m: real): (r: Clip)
    ensures r.mul == m
    ensures r.loaded == c.loaded && r.playing == c.playing && r.rewound == c.rewound
  {
    c.(mul := m)
  }

}

=== FILE: conductor.dfy ===
/** The beat-scheduling state machine (`ae.Conductor`): on every metronome
    pulse it reduces the count to a beat of the current section, and either
    commits a pending section transition, fires a downbeat and plays every
    player, fires an upbeat, or does nothing. Loops live in a map keyed by id
    so that the current and next player lists may share loops, as they do
    by default. */
module Conductors {

  import opened Optional
  import Loops

  type LoopId = nat

  /** One section's parameters: tempo, beats per cycle, the beats on which a
      transition may commit, and the players, in order. */
  datatype Section = Section(bpm: real, timesig: int, transitionBeats: seq<int>, players: seq<LoopId>)

  /** The external metronome: whether it is pulsing, and its pulse count. */
  datatype Metro = Metro(running: bool, count: nat)

  /** What the engine makes happen outside its own state, in order: a clip
      played and triggered, a user callback fired, the metronome stopped or
      started. */
  datatype Event =
    | Bang(id: LoopId, role: Loops.Role)
    | Downbeat
    | Upbeat
    | StopCallback
    | MetroStopped
    | MetroStarted

  datatype Conductor = Conductor(
    cur: Section,
    next: Section,
    toNext: bool,
    allLoaded: bool,
    metro: Metro,
    loops: map<LoopId, Loops.Loop>)

  /** A conductor step: the new state and the events it emitted. */
  datatype Step = Step(conductor: Conductor, events: seq<Event>)

  /** The loops after a fan-out, and the events it emitted. */
  datatype Fanout = Fanout(loops: map<LoopId, Loops.Loop>, events: seq<Event>)

  /** The per-loop operations the conductor fans out to its players. */
  datatype Command = PauseCmd | ResetCmd | TailCmd(on: bool)

  /** Every id in the list names a loop. */
  predicate Known(ids: seq<LoopId>, m: map<LoopId, Loops.Loop>)
  {
    forall id :: id in ids ==> id in m
  }

  /** Both the current and the pending player lists name loops. */
  predicate Valid(c: Conductor)
  {
    Known(c.cur.players, c.loops) && Known(c.next.players, c.loops)
  }

  function Apply(cmd: Command, l: Loops.Loop): Loops.Loop
  {
    match cmd
    case PauseCmd => Loops.Pause(l)
    case ResetCmd => Loops.Reset(l)
    case TailCmd(on) => Loops.SetTail(l, on)
  }

  /** Every fanned-out command can be applied twice to the same loop without
      further effect, so a player listed twice behaves as if listed once. */
  lemma ApplyIdempotent(cmd: Command, l: Loops.Loop)
    ensures Apply(cmd, Apply(cmd, l)) == Apply(cmd, l)
  {
    match cmd
    case PauseCmd => Loops.PauseIdempotent(l);
    case ResetCmd => Loops.ResetIdempotent(l);
    case TailCmd(_) =>
  }

  /** Send `cmd` to every listed loop, in list order. */
  function Fan(ids: seq<LoopId>, m: map<LoopId, Loops.Loop>, cmd: Command): (r: map<LoopId, Loops.Loop>)
    requires Known(ids, m)
    ensures r.Keys == m.Keys
    ensures forall id :: id in m && id !in ids ==> r[id] == m[id]
    ensures forall id :: id in ids ==> r[id] == Apply(cmd, m[id])
    decreases |ids|
  {
    if ids == [] then m
    else
      ApplyIdempotent(cmd, m[ids[0]]);
      Fan(ids[1..], m[ids[0] := Apply(cmd, m[ids[0]])], cmd)
  }

  /** What `play` leaves alone on a loop: activation, tail mode, default
      gain, the tail beats, and, in tail mode, the attack flag. */
  predicate KeepsMode(a: Loops.Loop, b: Loops.Loop)
  {
    && b.activated == a.activated
    && b.playTail == a.playTail
    && b.defaultMul == a.defaultMul
    && Loops.SameBeats(a.tail, b.tail)
    && (a.playTail ==> b.initPlayed == a.initPlayed)
  }

  /** Send `play(beat)` to every listed loop, in list order, collecting a
      `Bang` for every clip that sounds. */
  function PlayAll(ids: seq<LoopId>, m: map<LoopId, Loops.Loop>, beat: int): (r: Fanout)
    requires Known(ids, m)
    ensures r.loops.Keys == m.Keys
    ensures forall id :: id in m && id !in ids ==> r.loops[id] == m[id]
    ensures forall id :: id in m ==> KeepsMode(m[id], r.loops[id])
    ensures forall e :: e in r.events ==> e.Bang? && e.id in ids
    ensures |r.events| <= |ids|
    decreases |ids|
  {
    if ids == [] then Fanout(m, [])
    else
      var o := Loops.Play(m[ids[0]], beat);
      var rest := PlayAll(ids[1..], m[ids[0] := o.loop], beat);
      var e := if o.played.Some? then [Bang(ids[0], o.played.value)] else [];
      Fanout(rest.loops, e + rest.events)
  }

  /** No loop is listed twice. */
  predicate Distinct(ids: seq<LoopId>)
  {
    forall i, j :: 0 <= i < j < |ids| ==> ids[i] != ids[j]
  }

  /** The bangs of playing each listed loop once, from the given states:
      for each listed loop, in order, the clip its own `play(beat)` picks. */
  function PlayBangs(ids: seq<LoopId>, m: map<LoopId, Loops.Loop>, beat: int): seq<Event>
    requires Known(ids, m)
    decreases |ids|
  {
    if ids == [] then []
    else
      var o := Loops.Play(m[ids[0]], beat);
      (if o.played.Some? then [Bang(ids[0], o.played.value)] else []) + PlayBangs(ids[1..], m, beat)
  }

  /** The reference bangs depend only on the listed loops. */
  lemma {:induction false} PlayBangsFrame(ids: seq<LoopId>, m1: map<LoopId, Loops.Loop>, m2: map<LoopId, Loops.Loop>, beat: int)
    requires Known(ids, m1) && Known(ids, m2)
    requires forall id :: id in ids ==> m1[id] == m2[id]
    ensures PlayBangs(ids, m1, beat) == PlayBangs(ids, m2, beat)
    decreases |ids|
  {
    if ids != [] {
      PlayBangsFrame(ids[1..], m1, m2, beat);
    }
  }

  /** On a player list without repeats, `playPlayers` gives every listed
      loop exactly its own `play(beat)`, and the bangs are those plays' in
      player order. */
  lemma {:induction false} PlayAllDistinct(ids: seq<LoopId>, m: map<LoopId, Loops.Loop>, beat: int)
    requires Known(ids, m)
    ensures Distinct(ids) ==>
      && (forall id :: id in ids ==> PlayAll(ids, m, beat).loops[id] == Loops.Play(m[id], beat).loop)
      && PlayAll(ids, m, beat).events == PlayBangs(ids, m, beat)
    decreases |ids|
  {
    if ids != [] && Distinct(ids) {
      var id0 := ids[0];
      var m1 := m[id0 := Loops.Play(m[id0], beat).loop];
      assert Distinct(ids[1..]) by {
        forall i, j | 0 <= i < j < |ids[1..]|
          ensures ids[1..][i] != ids[1..][j]
        {
          assert ids[1..][i] == ids[i + 1] && ids[1..][j] == ids[j + 1];
        }
      }
      assert id0 !in ids[1..] by {
        forall j | 0 <= j < |ids[1..]|
          ensures ids[1..][j] != id0
        {
          assert ids[1..][j] == ids[j + 1];
        }
      }
      PlayAllDistinct(ids[1..], m1, beat);
      PlayBangsFrame(ids[1..], m1, m, beat);
    }
  }

  /** Every listed loop, repeats included, ends in the state of as many
      `play(beat)` calls in a row as it is listed. */
  lemma {:induction false} PlayAllRepeats(ids: seq<LoopId>, m: map<LoopId, Loops.Loop>, beat: int)
    requires Known(ids, m)
    ensures forall id :: id in ids ==>
      PlayAll(ids, m, beat).loops[id] == Loops.PlayRepeat(m[id], beat, multiset(ids)[id])
    decreases |ids|
  {
    if ids != [] {
      var id0 := ids[0];
      var m1 := m[id0 := Loops.Play(m[id0], beat).loop];
      assert ids == [id0] + ids[1..];
      assert multiset(ids) == multiset{id0} + multiset(ids[1..]);
      PlayAllRepeats(ids[1..], m1, beat);
      var rest := PlayAll(ids[1..], m1, beat);
      assert PlayAll(ids, m, beat).loops == rest.loops;
      forall id | id in ids
        ensures rest.loops[id] == Loops.PlayRepeat(m[id], beat, multiset(ids)[id])
      {
        var k := multiset(ids[1..])[id];
        if id == id0 {
          assert multiset(ids)[id] == k + 1;
          assert Loops.PlayRepeat(m[id], beat, k + 1) == Loops.PlayRepeat(m1[id], beat, k);
          if id !in ids[1..] {
            assert rest.loops[id] == m1[id];
          }
        } else {
          assert multiset(ids)[id] == k;
          assert m1[id] == m[id];
        }
      }
    }
  }

  /** A list of attack bangs, one per listed loop, in order. */
  function Attacks(ids: seq<LoopId>): (r: seq<Event>)
    ensures |r| == |ids|
  {
    seq(|ids|, i requires 0 <= i < |ids| => Bang(ids[i], Loops.Init))
  }

  /** Playing loops that are active, outside tail mode and have not yet
      sounded their attack sounds exactly their attacks, in player order. */
  lemma {:induction false} FreshLoopsPlayAttacks(ids: seq<LoopId>, m: map<LoopId, Loops.Loop>, beat: int)
    requires Known(ids, m) && Distinct(ids)
    requires forall id :: id in ids ==> m[id].activated && !m[id].playTail && !m[id].initPlayed
    ensures PlayBangs(ids, m, beat) == Attacks(ids)
    decreases |ids|
  {
    if ids != [] {
      assert Distinct(ids[1..]) by {
        forall i, j | 0 <= i < j < |ids[1..]|
          ensures ids[1..][i] != ids[1..][j]
        {
          assert ids[1..][i] == ids[i + 1] && ids[1..][j] == ids[j + 1];
        }
      }
      FreshLoopsPlayAttacks(ids[1..], m, beat);
      assert Attacks(ids) == [Bang(ids[0], Loops.Init)] + Attacks(ids[1..]);
    }
  }

  /** The tail entry a loop in tail mode sounds on `beat`, if any. */
  function TailChoice(l: Loops.Loop, beat: int): Option<nat>
  {
    if l.activated then Loops.FirstTail(l.tail, beat) else None
  }

  /** The bangs a list of loops in tail mode emits on `beat`: for each listed
      loop, in order, its first tail entry containing the beat, if it is
      active and has one. */
  function TailBangs(ids: seq<LoopId>, m: map<LoopId, Loops.Loop>, beat: int): (r: seq<Event>)
    requires Known(ids, m)
    ensures forall e :: e in r ==> e.Bang? && e.id in ids && e.role.Tail?
    decreases |ids|
  {
    if ids == [] then []
    else
      var head := match TailChoice(m[ids[0]], beat)
        case None => []
        case Some(k) => [Bang(ids[0], Loops.Tail(k))];
      head + TailBangs(ids[1..], m, beat)
  }

  /** The tail bangs depend only on each listed loop's tail choice. */
  lemma {:induction false} TailBangsFrame(ids: seq<LoopId>, m1: map<LoopId, Loops.Loop>, m2: map<LoopId, Loops.Loop>, beat: int)
    requires Known(ids, m1) && Known(ids, m2)
    requires forall id :: id in ids ==> TailChoice(m1[id], beat) == TailChoice(m2[id], beat)
    ensures TailBangs(ids, m1, beat) == TailBangs(ids, m2, beat)
    decreases |ids|
  {
    if ids != [] {
      TailBangsFrame(ids[1..], m1, m2, beat);
    }
  }

  /** The tail choice depends only on activation and the tail beats. */
  lemma TailChoiceFrame(a: Loops.Loop, b: Loops.Loop, beat: int)
    requires a.activated == b.activated && Loops.SameBeats(a.tail, b.tail)
    ensures TailChoice(a, beat) == TailChoice(b, beat)
  {
    Loops.FirstTailFrame(a.tail, b.tail, beat);
  }

  /** When every listed loop is in tail mode, playing them all emits exactly
      the tail bangs, in player order. */
  lemma {:induction false} PlayAllInTailMode(ids: seq<LoopId>, m: map<LoopId, Loops.Loop>, beat: int)
    requires Known(ids, m)
    requires forall id :: id in ids ==> m[id].playTail
    ensures PlayAll(ids, m, beat).events == TailBangs(ids, m, beat)
    ensures forall id :: id in ids ==> PlayAll(ids, m, beat).loops[id] == Loops.Play(m[id], beat).loop
    decreases |ids|
  {
    if ids != [] {
      var id0 := ids[0];
      var o := Loops.Play(m[id0], beat);
      var m1 := m[id0 := o.loop];
      assert KeepsMode(m[id0], o.loop);
      PlayAllInTailMode(ids[1..], m1, beat);
      Loops.PlayTailTwice(m[id0], beat);
      forall id | id in ids[1..]
        ensures TailChoice(m1[id], beat) == TailChoice(m[id], beat)
      {
        if id == id0 {
          TailChoiceFrame(m[id0], o.loop, beat);
        }
      }
      TailBangsFrame(ids[1..], m1, m, beat);
      var head := match TailChoice(m[id0], beat)
        case None => []
        case Some(k) => [Bang(id0, Loops.Tail(k))];
      assert (if o.played.Some? then [Bang(id0, o.played.value)] else []) == head;
    }
  }

  /** JavaScript's `%`: the remainder takes the sign of the dividend. */
  function JsRem(a: int, b: int): int
    requires b != 0
  {
    var m := Abs(a) % Abs(b);
    if a < 0 then -m else m
  }

  function Abs(x: int): nat
  {
    if x < 0 then -x else x
  }

  /** The beat a pulse count falls on: `count % timesig`. A zero time
      signature makes the source's beat NaN, which is modelled as `None`:
      it is no transition beat and not beat 0. */
  function Beat(count: nat, timesig: int): (r: Option<int>)
    ensures timesig == 0 <==> r.None?
    ensures r.Some? ==> 0 <= r.value < Abs(timesig)
    // on a non-negative count the truncating remainder is the Euclidean one
    ensures r.Some? ==> r.value == count % Abs(timesig)
  {
    if timesig == 0 then None else Some(JsRem(count, timesig))
  }

  /** The beat repeats every `timesig` pulses, and the pulses of the first
      cycle are their own beats. */
  lemma BeatCycles(count: nat, timesig: int)
    requires timesig > 0
    ensures Beat(count + timesig, timesig) == Beat(count, timesig)
    ensures count < timesig ==> Beat(count, timesig) == Some(count)
  {
    ModAddPeriod(count, timesig);
    assert Beat(count + timesig, timesig).value == (count + timesig) % timesig;
    if count < timesig {
      ModUnique(count, timesig, 0, count);
    }
  }

  lemma MulAtLeast(x: int, n: int)
    requires x >= 1 && n > 0
    ensures x * n >= n
  {
    var k := x - 1;
    assert x * n == k * n + n;
    assert k * n >= 0;
  }

  /** Euclidean division has one quotient and one remainder. */
  lemma ModUnique(a: int, n: int, q: int, r: int)
    requires n > 0 && 0 <= r < n && a == q * n + r
    ensures a % n == r
  {
    var q', r' := a / n, a % n;
    assert a == q' * n + r';
    if q' < q {
      MulAtLeast(q - q', n);
    } else if q' > q {
      MulAtLeast(q' - q, n);
    }
  }

  lemma ModAddPeriod(a: int, n: int)
    requires n > 0
    ensures (a + n) % n == a % n
  {
    var q := a / n;
    assert a == q * n + a % n;
    assert (q + 1) * n == q * n + n;
    ModUnique(a + n, n, q + 1, a % n);
  }

  /** The constructor: the pending section starts out equal to the current
      one, nothing is pending, nothing counts as loaded, and the metronome
      is built but not started. */
  function NewConductor(s: Section, loops: map<LoopId, Loops.Loop>): (r: Conductor)
    requires Known(s.players, loops)
    ensures Valid(r)
    ensures r.cur == s && r.next == s
    ensures !r.toNext && !r.allLoaded
    ensures r.metro == Metro(false, 0)
    ensures r.loops == loops
  {
    Conductor(s, s, false, false, Metro(false, 0), loops)
  }

  /** Requesting a transition: the caller assigns the `next*` fields and
      sets `toNext`. The pending players may be loops built for the new
      section (`newLoops`, under fresh ids) as well as loops already known. */
  function RequestTransition(c: Conductor, s: Section, newLoops: map<LoopId, Loops.Loop>): (r: Conductor)
    requires Valid(c)
    requires newLoops.Keys !! c.loops.Keys
    requires Known(s.players, c.loops + newLoops)
    ensures Valid(r)
    ensures r.toNext && r.next == s
    ensures r == c.(next := s, toNext := true, loops := r.loops)
    ensures r.loops.Keys == c.loops.Keys + newLoops.Keys
    ensures forall id :: id in c.loops ==> r.loops[id] == c.loops[id]
    ensures forall id :: id in newLoops ==> r.loops[id] == newLoops[id]
  {
    c.(next := s, toNext := true, loops := c.loops + newLoops)
  }

  /** Requesting again before the commit overwrites the pending section;
      the loops built for both requests stay known. */
  lemma LastRequestWins(c: Conductor, s1: Section, n1: map<LoopId, Loops.Loop>, s2: Section, n2: map<LoopId, Loops.Loop>)
    requires Valid(c)
    requires n1.Keys !! c.loops.Keys && Known(s1.players, c.loops + n1)
    requires n2.Keys !! (c.loops + n1).Keys && Known(s2.players, c.loops + n1 + n2)
    ensures var r := RequestTransition(RequestTransition(c, s1, n1), s2, n2);
      && r == c.(next := s2, toNext := true, loops := r.loops)
      && r.loops == c.loops + n1 + n2
  {
  }

  /** `playPlayers(beat)`: play every current player, in order. */
  function PlayPlayers(c: Conductor, beat: int): (r: Step)
    requires Valid(c)
    ensures Valid(r.conductor)
    ensures r.conductor == c.(loops := r.conductor.loops)
    ensures r.conductor.loops.Keys == c.loops.Keys
    ensures forall id :: id in c.loops && id !in c.cur.players ==> r.conductor.loops[id] == c.loops[id]
    ensures forall e :: e in r.events ==> e.Bang? && e.id in c.cur.players
    // without repeated players, each player gets exactly its own `play(beat)`
    ensures Distinct(c.cur.players) ==>
      && (forall id :: id in c.cur.players ==> r.conductor.loops[id] == Loops.Play(c.loops[id], beat).loop)
      && r.events == PlayBangs(c.cur.players, c.loops, beat)
    // a player listed k times is played k times in a row
    ensures forall id :: id in c.cur.players ==>
      r.conductor.loops[id] == Loops.PlayRepeat(c.loops[id], beat, multiset(c.cur.players)[id])
  {
    PlayAllDistinct(c.cur.players, c.loops, beat);
    PlayAllRepeats(c.cur.players, c.loops, beat);
    var p := PlayAll(c.cur.players, c.loops, beat);
    Step(c.(loops := p.loops), p.events)
  }

  /** `pausePlayers()`: pause every current player. */
  function PausePlayers(c: Conductor): (r: Conductor)
    requires Valid(c)
    ensures Valid(r)
    ensures r == c.(loops := r.loops)
    ensures r.loops.Keys == c.loops.Keys
    ensures forall id :: id in c.cur.players ==> r.loops[id] == Loops.Pause(c.loops[id])
    ensures forall id :: id in c.loops && id !in c.cur.players ==> r.loops[id] == c.loops[id]
  {
    c.(loops := Fan(c.cur.players, c.loops, PauseCmd))
  }

  /** `resetPlayers()`: reset every current player. */
  function ResetPlayers(c: Conductor): (r: Conductor)
    requires Valid(c)
    ensures Valid(r)
    ensures r == c.(loops := r.loops)
    ensures r.loops.Keys == c.loops.Keys
    ensures forall id :: id in c.cur.players ==> r.loops[id] == Loops.Reset(c.loops[id]) && Loops.IsReset(r.loops[id])
    ensures forall id :: id in c.loops && id !in c.cur.players ==> r.loops[id] == c.loops[id]
  {
    c.(loops := Fan(c.cur.players, c.loops, ResetCmd))
  }

  /** `toggleTail(tf)`: set tail mode on every current player. */
  function ToggleTail(c: Conductor, on: bool): (r: Conductor)
    requires Valid(c)
    ensures Valid(r)
    ensures r == c.(loops := r.loops)
    ensures r.loops.Keys == c.loops.Keys
    ensures forall id :: id in c.cur.players ==> r.loops[id] == Loops.SetTail(c.loops[id], on)
    ensures forall id :: id in c.loops && id !in c.cur.players ==> r.loops[id] == c.loops[id]
  {
    c.(loops := Fan(c.cur.players, c.loops, TailCmd(on)))
  }

  /** The outgoing half of a commit: pause the current players, put them in
      tail mode and play them once on `beat`. Only their tails for that
      beat sound, in player order. */
  function PlayTails(c: Conductor, beat: int): (r: Step)
    requires Valid(c)
    ensures Valid(r.conductor)
    ensures r.conductor == c.(loops := r.conductor.loops)
    ensures r.conductor.loops.Keys == c.loops.Keys
    ensures forall id :: id in c.loops && id !in c.cur.players ==> r.conductor.loops[id] == c.loops[id]
    ensures r.events == TailBangs(c.cur.players, c.loops, beat)
    ensures Downbeat !in r.events && Upbeat !in r.events
  {
    var paused := PausePlayers(c);
    var tailed := ToggleTail(paused, true);
    assert forall id :: id in c.cur.players ==> TailChoice(tailed.loops[id], beat) == TailChoice(c.loops[id], beat) by {
      forall id | id in c.cur.players
        ensures TailChoice(tailed.loops[id], beat) == TailChoice(c.loops[id], beat)
      {
        TailChoiceFrame(c.loops[id], tailed.loops[id], beat);
      }
    }
    TailBangsFrame(c.cur.players, tailed.loops, c.loops, beat);
    PlayAllInTailMode(c.cur.players, tailed.loops, beat);
    PlayPlayers(tailed, beat)
  }

  /** Each outgoing loop ends a commit's outgoing half paused, in tail mode
      and played once on `beat`, even when it is listed twice. */
  lemma PlayTailsLoops(c: Conductor, beat: int)
    requires Valid(c)
    ensures forall id :: id in c.cur.players ==>
      PlayTails(c, beat).conductor.loops[id] == Loops.Play(Loops.SetTail(Loops.Pause(c.loops[id]), true), beat).loop
  {
    var tailed := ToggleTail(PausePlayers(c), true);
    PlayAllInTailMode(c.cur.players, tailed.loops, beat);
  }

  /** Commit the pending section on transition beat `beat`: pause the
      outgoing players, put them in tail mode and give them one last
      `play(beat)`, stop the metronome, swap in the pending section, zero
      the count, clear the request, reset the incoming players and restart
      the metronome. */
  function Commit(c: Conductor, beat: int): (r: Step)
    requires Valid(c)
    ensures Valid(r.conductor)
    // the pending section becomes current, the request is cleared, the
    // metronome runs from count 0, and `all_loaded` is kept
    ensures r.conductor == c.(cur := c.next, toNext := false, metro := Metro(true, 0), loops := r.conductor.loops)
    ensures r.conductor.loops.Keys == c.loops.Keys
    ensures forall id :: id in c.next.players ==> Loops.IsReset(r.conductor.loops[id])
    ensures Downbeat !in r.events && Upbeat !in r.events
  {
    var played := PlayTails(c, beat);
    Step(SwapIn(played.conductor), played.events + [MetroStopped, MetroStarted])
  }

  /** What a commit does to each loop, by the player lists it is in. A loop
      only in the pending list is the reset of its old state. A loop only in
      the current list was paused, put in tail mode and played once on the
      transition beat. A loop in both lists gets that same last play and is
      then reset. A loop in neither list is untouched. */
  lemma CommitLoops(c: Conductor, beat: int)
    requires Valid(c)
    ensures var r := Commit(c, beat).conductor;
      && (forall id :: id in c.next.players && id !in c.cur.players ==> r.loops[id] == Loops.Reset(c.loops[id]))
      && (forall id :: id in c.cur.players && id !in c.next.players ==>
            r.loops[id] == Loops.Play(Loops.SetTail(Loops.Pause(c.loops[id]), true), beat).loop)
      && (forall id :: id in c.loops && id !in c.cur.players && id !in c.next.players ==> r.loops[id] == c.loops[id])
      // a loop that plays on in the new section gets its last tail, then the reset
      && (forall id :: id in c.cur.players && id in c.next.players ==>
            r.loops[id] == Loops.Reset(Loops.Play(Loops.SetTail(Loops.Pause(c.loops[id]), true), beat).loop))
  {
    var played := PlayTails(c, beat).conductor;
    var r := SwapIn(played);
    assert Commit(c, beat).conductor == r;
    PlayTailsLoops(c, beat);
    forall id | id in c.next.players && id !in c.cur.players
      ensures r.loops[id] == Loops.Reset(c.loops[id])
    {
      assert played.loops[id] == c.loops[id];
    }
    forall id | id in c.cur.players && id !in c.next.players
      ensures r.loops[id] == Loops.Play(Loops.SetTail(Loops.Pause(c.loops[id]), true), beat).loop
    {
      assert r.loops[id] == played.loops[id];
    }
    forall id | id in c.loops && id !in c.cur.players && id !in c.next.players
      ensures r.loops[id] == c.loops[id]
    {
      assert r.loops[id] == played.loops[id];
    }
    forall id | id in c.cur.players && id in c.next.players
      ensures r.loops[id] == Loops.Reset(Loops.Play(Loops.SetTail(Loops.Pause(c.loops[id]), true), beat).loop)
    {
      assert r.loops[id] == Loops.Reset(played.loops[id]);
    }
  }

  /** The incoming half of a commit: stop the metronome, make the pending
      section current, zero the count, clear the request, reset the new
      players and restart the metronome. */
  function SwapIn(c: Conductor): (r: Conductor)
    requires Valid(c)
    ensures Valid(r)
    ensures r == c.(cur := c.next, toNext := false, metro := Metro(true, 0), loops := r.loops)
    ensures r.loops.Keys == c.loops.Keys
    ensures forall id :: id in c.next.players ==> r.loops[id] == Loops.Reset(c.loops[id]) && Loops.IsReset(r.loops[id])
    ensures forall id :: id in c.loops && id !in c.next.players ==> r.loops[id] == c.loops[id]
  {
    var swapped := c.(cur := c.next, metro := Metro(false, 0), toNext := false);
    ResetPlayers(swapped).(metro := Metro(true, 0))
  }

  /** The downbeat action: fire the downbeat callback, then play every
      current player on beat 0. */
  function DownbeatStep(c: Conductor): (r: Step)
    requires Valid(c)
    ensures Valid(r.conductor)
    ensures r.conductor == c.(loops := r.conductor.loops)
    ensures |r.events| > 0 && r.events[0] == Downbeat
    ensures Upbeat !in r.events
    // without repeated players: the callback, then each player's own clip on beat 0
    ensures Distinct(c.cur.players) ==> r.events == [Downbeat] + PlayBangs(c.cur.players, c.loops, 0)
    // every player is played on beat 0, once per listing; other loops are untouched
    ensures r.conductor.loops.Keys == c.loops.Keys
    ensures forall id :: id in c.loops && id !in c.cur.players ==> r.conductor.loops[id] == c.loops[id]
    ensures forall id :: id in c.cur.players ==>
      r.conductor.loops[id] == Loops.PlayRepeat(c.loops[id], 0, multiset(c.cur.players)[id])
  {
    var played := PlayPlayers(c, 0);
    Step(played.conductor, [Downbeat] + played.events)
  }

  /** The pulse falls on one of the current section's transition beats. */
  predicate OnTransitionBeat(c: Conductor, count: nat)
  {
    var b := Beat(count, c.cur.timesig);
    b.Some? && b.value in c.cur.transitionBeats
  }

  /** The pulse commits a pending transition. */
  predicate Commits(c: Conductor, count: nat)
  {
    OnTransitionBeat(c, count) && c.toNext
  }

  /** `metroFunction(count)`: the per-pulse beat handler. */
  function MetroFunction(c: Conductor, count: nat): (r: Step)
    requires Valid(c)
    ensures Valid(r.conductor)
    ensures r.conductor.allLoaded == c.allLoaded
    // the downbeat fires on beat 0 and only there, unless a commit takes the pulse
    ensures !Commits(c, count) ==> (Downbeat in r.events <==> Beat(count, c.cur.timesig) == Some(0))
    ensures Commits(c, count) ==> Downbeat !in r.events
    // the upbeat fires exactly off beat 0 and off the transition beats
    ensures Upbeat in r.events <==> !OnTransitionBeat(c, count) && Beat(count, c.cur.timesig) != Some(0)
    // a transition beat other than 0 with nothing pending does nothing at all
    ensures OnTransitionBeat(c, count) && !c.toNext && Beat(count, c.cur.timesig) != Some(0) ==> r == Step(c, [])
    // the downbeat: callback first, then `playPlayers(0)`
    ensures !Commits(c, count) && Beat(count, c.cur.timesig) == Some(0) ==>
      var p := PlayPlayers(c, 0);
      r.conductor == p.conductor && r.events == [Downbeat] + p.events
    // an upbeat changes no state
    ensures Upbeat in r.events ==> r == Step(c, [Upbeat])
    // only a commit touches the section, the request or the metronome
    ensures !Commits(c, count) ==> r.conductor == c.(loops := r.conductor.loops)
  {
    var beat := Beat(count, c.cur.timesig);
    if beat.Some? && beat.value in c.cur.transitionBeats then
      if c.toNext then Commit(c, beat.value)
      else if beat.value == 0 then DownbeatStep(c)
      else Step(c, [])
    else if beat == Some(0) then DownbeatStep(c)
    else Step(c, [Upbeat])
  }

  /** A committed transition swaps the whole section at once, restarts the
      count, leaves the metronome running and every incoming player reset. */
  lemma CommitIsAtomic(c: Conductor, count: nat)
    requires Valid(c) && Commits(c, count)
    ensures var r := MetroFunction(c, count).conductor;
      && r.cur == c.next
      && r.next == c.next
      && !r.toNext
      && r.metro == Metro(true, 0)
      && r.allLoaded == c.allLoaded
      && r.loops.Keys == c.loops.Keys
      && forall id :: id in c.next.players ==> Loops.IsReset(r.loops[id])
  {
  }

  /** On a commit the outgoing players' tails for that exact beat are the
      only clips that sound, in player order, and they sound before the
      metronome is stopped and the section swapped. Outgoing players that
      are not also incoming are left in tail mode with their attack flag
      cleared, every clip paused except the tail clip just played. */
  lemma CommitOrdering(c: Conductor, count: nat)
    requires Valid(c) && Commits(c, count)
    ensures var r := MetroFunction(c, count);
      var beat := Beat(count, c.cur.timesig).value;
      && r.events == TailBangs(c.cur.players, c.loops, beat) + [MetroStopped, MetroStarted]
      && forall id :: id in c.cur.players && id !in c.next.players ==>
           && r.conductor.loops[id].playTail
           && !r.conductor.loops[id].initPlayed
           && r.conductor.loops[id] == Loops.Play(Loops.SetTail(Loops.Pause(c.loops[id]), true), beat).loop
  {
    CommitLoops(c, Beat(count, c.cur.timesig).value);
  }

  /** The first downbeat after a reset of the players (as `start` and a
      commit leave them) fires the downbeat callback and then sounds every
      player's attack, in player order, and nothing else. */
  lemma FirstDownbeatPlaysAttacks(c: Conductor, count: nat)
    requires Valid(c) && Distinct(c.cur.players)
    requires forall id :: id in c.cur.players ==> Loops.IsReset(c.loops[id])
    requires !Commits(c, count) && Beat(count, c.cur.timesig) == Some(0)
    ensures MetroFunction(c, count).events == [Downbeat] + Attacks(c.cur.players)
  {
    FreshLoopsPlayAttacks(c.cur.players, c.loops, 0);
  }

  /** The loaded scan: the index of the first current player with a clip
      that has not finished loading. */
  function FirstUnloaded(players: seq<LoopId>, loops: map<LoopId, Loops.Loop>): (r: Option<nat>)
    requires Known(players, loops)
    ensures r.Some? ==> r.value < |players| && !Loops.LoopLoaded(loops[players[r.value]])
    ensures r.Some? ==> forall j :: 0 <= j < r.value ==> Loops.LoopLoaded(loops[players[j]])
    ensures r.None? <==> forall j :: 0 <= j < |players| ==> Loops.LoopLoaded(loops[players[j]])
    decreases |players|
  {
    if |players| == 0 then None
    else if !Loops.LoopLoaded(loops[players[0]]) then Some(0)
    else
      match FirstUnloaded(players[1..], loops)
      case None => None
      case Some(k) => Some(k + 1)
  }

  /** The scan as the source writes it: players in order, attack and body
      first, then the tails in order, stopping at the first clip not loaded. */
  method ScanLoaded(players: seq<LoopId>, loops: map<LoopId, Loops.Loop>) returns (missing: Option<nat>)
    requires Known(players, loops)
    ensures missing == FirstUnloaded(players, loops)
  {
    var i := 0;
    while i < |players|
      invariant 0 <= i <= |players|
      invariant forall j :: 0 <= j < i ==> Loops.LoopLoaded(loops[players[j]])
    {
      var l := loops[players[i]];
      if l.init.loaded && l.body.loaded {
        var k := 0;
        while k < |l.tail|
          invariant 0 <= k <= |l.tail|
          invariant forall j :: 0 <= j < k ==> l.tail[j].audio.loaded
        {
          if !l.tail[k].audio.loaded {
            return Some(i);
          }
          k := k + 1;
        }
      } else {
        return Some(i);
      }
      i := i + 1;
    }
    return None;
  }

  /** `checkAllLoaded()` as written: an early return when the flag is
      already set, otherwise the scan, which can only ever store `false`;
      the assignment of `true` is commented out. */
  function CheckAllLoaded(c: Conductor): (r: Conductor)
    requires Valid(c)
    ensures r == c
  {
    if c.allLoaded then c
    else if FirstUnloaded(c.cur.players, c.loops).Some? then c.(allLoaded := false)
    else c
  }

  /** `start()`: run the load check, then, only if the flag is set, reset
      the current players and start the metronome. */
  function Start(c: Conductor): (r: Step)
    requires Valid(c)
    ensures Valid(r.conductor)
    ensures r.conductor.loops.Keys == c.loops.Keys
    ensures !c.allLoaded ==> r == Step(c, [])
    ensures c.allLoaded ==>
      && r.events == [MetroStarted]
      && r.conductor == c.(loops := r.conductor.loops, metro := c.metro.(running := true))
      && (forall id :: id in c.cur.players ==>
            r.conductor.loops[id] == Loops.Reset(c.loops[id]) && Loops.IsReset(r.conductor.loops[id]))
      && (forall id :: id in c.loops && id !in c.cur.players ==> r.conductor.loops[id] == c.loops[id])
  {
    var checked := CheckAllLoaded(c);
    if checked.allLoaded then
      var reset := ResetPlayers(checked);
      Step(reset.(metro := reset.metro.(running := true)), [MetroStarted])
    else Step(checked, [])
  }

  /** A freshly built conductor never starts, however completely its players
      have loaded. */
  lemma FreshConductorNeverStarts(s: Section, loops: map<LoopId, Loops.Loop>)
    requires Known(s.players, loops)
    requires forall id :: id in s.players ==> Loops.LoopLoaded(loops[id])
    ensures !Start(NewConductor(s, loops)).conductor.metro.running
  {
  }

  /** `checkAllLoaded()` as evidently intended: a completed scan stores `true`. */
  function CheckAllLoadedIntended(c: Conductor): (r: Conductor)
    requires Valid(c)
    ensures r == c.(allLoaded := r.allLoaded)
    ensures c.allLoaded ==> r.allLoaded
    ensures !c.allLoaded ==>
      (r.allLoaded <==> forall id :: id in c.cur.players ==> Loops.LoopLoaded(c.loops[id]))
  {
    if c.allLoaded then c
    else if FirstUnloaded(c.cur.players, c.loops).Some? then c.(allLoaded := false)
    else c.(allLoaded := true)
  }

  /** `start()` over the intended load check: it starts as soon as every
      current player has loaded, and refuses while one has not. */
  function StartIntended(c: Conductor): (r: Step)
    requires Valid(c)
    ensures Valid(r.conductor)
    ensures r.conductor.loops.Keys == c.loops.Keys
    ensures !c.allLoaded && (exists id :: id in c.cur.players && !Loops.LoopLoaded(c.loops[id])) ==>
      r == Step(c, [])
    ensures (c.allLoaded || forall id :: id in c.cur.players ==> Loops.LoopLoaded(c.loops[id])) ==>
      && r.events == [MetroStarted]
      && r.conductor == c.(allLoaded := true, loops := r.conductor.loops, metro := c.metro.(running := true))
      && (forall id :: id in c.cur.players ==>
            r.conductor.loops[id] == Loops.Reset(c.loops[id]) && Loops.IsReset(r.conductor.loops[id]))
      && (forall id :: id in c.loops && id !in c.cur.players ==> r.conductor.loops[id] == c.loops[id])
  {
    var checked := CheckAllLoadedIntended(c);
    if checked.allLoaded then
      var reset := ResetPlayers(checked);
      Step(reset.(metro := reset.metro.(running := true)), [MetroStarted])
    else Step(checked, [])
  }

  /** `stop()`: pause every current player, stop the metronome, fire the
      stop callback. */
  function Stop(c: Conductor): (r: Step)
    requires Valid(c)
    ensures Valid(r.conductor)
    ensures r.conductor.loops.Keys == c.loops.Keys
    ensures !r.conductor.metro.running
    ensures r.events == [MetroStopped, StopCallback]
    ensures forall id :: id in c.cur.players ==> r.conductor.loops[id] == Loops.Pause(c.loops[id])
    ensures forall id :: id in c.loops && id !in c.cur.players ==> r.conductor.loops[id] == c.loops[id]
    ensures r.conductor == c.(loops := r.conductor.loops, metro := c.metro.(running := false))
  {
    var paused := PausePlayers(c);
    Step(paused.(metro := paused.metro.(running := false)), [MetroStopped, StopCallback])
  }

  /** Stopping twice leaves the same state as stopping once. */
  lemma StopIdempotent(c: Conductor)
    requires Valid(c)
    ensures Stop(Stop(c).conductor).conductor == Stop(c).conductor
  {
    var s1 := Stop(c).conductor;
    var s2 := Stop(s1).conductor;
    forall id | id in s1.loops
      ensures s2.loops[id] == s1.loops[id]
    {
      if id in c.cur.players {
        Loops.PauseIdempotent(c.loops[id]);
      }
    }
    assert s2.loops == s1.loops;
  }

}

=== FILE: loops.dfy ===
/** The per-part playback state machine (`ae.Loop`): an attack clip played
    once per cycle, a body clip played on every later downbeat, and an ordered
    list of one-shot tail clips each gated to a set of beats. */
module Loops {

  import opened Optional
  import Clips

  /** One tail entry: the beats it may sound on, and its clip. */
  datatype TailEntry = TailEntry(beats: seq<int>, audio: Clips.Clip)

  /** Which of a loop's clips is meant: the attack (`init`), the body
      (`loop` in the source) or the tail entry at an index. */
  datatype Role = Init | Body | Tail(index: nat)

  datatype Loop = Loop(
    init: Clips.Clip,
    body: Clips.Clip,
    tail: seq<TailEntry>,
    activated: bool,
    initPlayed: bool,
    playTail: bool,
    mul: real,
    defaultMul: real)

  /** The scalar state of a loop, apart from its clips. */
  datatype Flags = Flags(activated: bool, initPlayed: bool, playTail: bool, mul: real, defaultMul: real)

  /** The result of `play`: the new loop and the clip that was played and
      triggered, if any. */
  datatype PlayOutcome = PlayOutcome(loop: Loop, played: Option<Role>)

  function FlagsOf(l: Loop): Flags
  {
    Flags(l.activated, l.initPlayed, l.playTail, l.mul, l.defaultMul)
  }

  /** The flags a freshly constructed or freshly reset loop carries. */
  function ResetFlags(defaultMul: real): Flags
  {
    Flags(true, false, false, defaultMul, defaultMul)
  }

  predicate HasRole(l: Loop, role: Role)
  {
    role.Tail? ==> role.index < |l.tail|
  }

  function ClipOf(l: Loop, role: Role): Clips.Clip
    requires HasRole(l, role)
  {
    match role
    case Init => l.init
    case Body => l.body
    case Tail(i) => l.tail[i].audio
  }

  /** Two tail lists gate their entries on the same beats. */
  predicate SameBeats(a: seq<TailEntry>, b: seq<TailEntry>)
  {
    |a| == |b| && forall i :: 0 <= i < |a| ==> a[i].beats == b[i].beats
  }

  /** A loop is fully loaded when its attack, its body and every tail clip are. */
  predicate LoopLoaded(l: Loop)
  {
    && l.init.loaded
    && l.body.loaded
    && forall i :: 0 <= i < |l.tail| ==> l.tail[i].audio.loaded
  }

  /** The state `reset` establishes: attack not yet consumed, tail mode off,
      activated, the gain back at its default on the loop and on every clip,
      and every clip rewound. */
  ghost predicate IsReset(l: Loop)
  {
    && FlagsOf(l) == ResetFlags(l.defaultMul)
    && forall role :: HasRole(l, role) ==> ClipOf(l, role).rewound && ClipOf(l, role).mul == l.defaultMul
  }

  /** Apply `f` to every clip of the loop, leaving everything else alone. */
  function MapClips(l: Loop, f: Clips.Clip -> Clips.Clip): (r: Loop)
    ensures FlagsOf(r) == FlagsOf(l)
    ensures SameBeats(l.tail, r.tail)
    ensures forall role :: HasRole(l, role) ==> HasRole(r, role) && ClipOf(r, role) == f(ClipOf(l, role))
  {
    var tail := seq(|l.tail|, i requires 0 <= i < |l.tail| => l.tail[i].(audio := f(l.tail[i].audio)));
    l.(init := f(l.init), body := f(l.body), tail := tail)
  }

  /** The loop's constructor, given its already-created clips. Without a
      supplied default gain the default is 1. */
  function NewLoop(init: Clips.Clip, body: Clips.Clip, tail: seq<TailEntry>, defaultMul: Option<real>): (r: Loop)
    ensures FlagsOf(r) == ResetFlags(if defaultMul.Some? then defaultMul.value else 1.0)
    ensures r.init == init && r.body == body && r.tail == tail
  {
    var d := if defaultMul.Some? then defaultMul.value else 1.0;
    Loop(init, body, tail, true, false, false, d, d)
  }

  /** The index of the first tail entry, in list order, whose beats contain `beat`. */
  function FirstTail(tail: seq<TailEntry>, beat: int): (r: Option<nat>)
    ensures r.Some? ==> r.value < |tail| && beat in tail[r.value].beats
    ensures r.Some? ==> forall j :: 0 <= j < r.value ==> beat !in tail[j].beats
    ensures r.None? <==> forall j :: 0 <= j < |tail| ==> beat !in tail[j].beats
    decreases |tail|
  {
    if |tail| == 0 then None
    else if beat in tail[0].beats then Some(0)
    else
      match FirstTail(tail[1..], beat)
      case None => None
      case Some(k) => Some(k + 1)
  }

  /** Which tail entry is chosen depends only on the entries' beats. */
  lemma FirstTailFrame(a: seq<TailEntry>, b: seq<TailEntry>, beat: int)
    requires SameBeats(a, b)
    ensures FirstTail(a, beat) == FirstTail(b, beat)
  {
    var ra, rb := FirstTail(a, beat), FirstTail(b, beat);
    if ra.Some? && rb.Some? {
      assert a[ra.value].beats == b[ra.value].beats;
      assert a[rb.value].beats == b[rb.value].beats;
    }
  }

  /** Play the clip of `role` and leave every other clip alone. */
  function PlayClip(l: Loop, role: Role): (r: Loop)
    requires HasRole(l, role)
    ensures FlagsOf(r) == FlagsOf(l)
    ensures SameBeats(l.tail, r.tail)
    ensures HasRole(r, role) && ClipOf(r, role) == Clips.Play(ClipOf(l, role))
    ensures forall other :: HasRole(l, other) && other != role ==> HasRole(r, other) && ClipOf(r, other) == ClipOf(l, other)
  {
    match role
    case Init => l.(init := Clips.Play(l.init))
    case Body => l.(body := Clips.Play(l.body))
    case Tail(i) => l.(tail := l.tail[i := l.tail[i].(audio := Clips.Play(l.tail[i].audio))])
  }

  /** `play(beat)`: decide which clip sounds on this beat. */
  function Play(l: Loop, beat: int): (r: PlayOutcome)
    // a deactivated loop ignores the call entirely
    ensures !l.activated ==> r == PlayOutcome(l, None)
    // tail mode: the first matching tail entry, or nothing; never the attack or body
    ensures l.activated && l.playTail ==>
      (r.played.None? <==> forall j :: 0 <= j < |l.tail| ==> beat !in l.tail[j].beats)
    ensures l.playTail ==> r.played.None? || r.played.value.Tail?
    ensures r.played.Some? && r.played.value.Tail? ==>
      && r.played.value.index < |l.tail|
      && beat in l.tail[r.played.value.index].beats
      && forall j :: 0 <= j < r.played.value.index ==> beat !in l.tail[j].beats
    ensures l.playTail ==> FlagsOf(r.loop) == FlagsOf(l)
    // normal mode: the attack once, then the body
    ensures l.activated && !l.playTail && !l.initPlayed ==> r.played == Some(Init)
    ensures l.activated && !l.playTail && l.initPlayed ==> r.played == Some(Body)
    ensures l.activated && !l.playTail ==> FlagsOf(r.loop) == FlagsOf(l).(initPlayed := true)
    // the chosen clip is started; every other clip is untouched
    ensures r.played.Some? ==>
      && HasRole(l, r.played.value)
      && HasRole(r.loop, r.played.value)
      && ClipOf(r.loop, r.played.value) == Clips.Play(ClipOf(l, r.played.value))
    ensures forall role :: HasRole(l, role) && r.played != Some(role) ==>
      HasRole(r.loop, role) && ClipOf(r.loop, role) == ClipOf(l, role)
    ensures SameBeats(l.tail, r.loop.tail)
  {
    if !l.activated then PlayOutcome(l, None)
    else if l.playTail then
      match FirstTail(l.tail, beat)
      case None => PlayOutcome(l, None)
      case Some(k) => PlayOutcome(PlayClip(l, Tail(k)), Some(Tail(k)))
    else if l.initPlayed then PlayOutcome(PlayClip(l, Body), Some(Body))
    else PlayOutcome(PlayClip(l, Init).(initPlayed := true), Some(Init))
  }

  /** `pause()`: stop every clip and forget that the attack was played. */
  function Pause(l: Loop): (r: Loop)
    ensures FlagsOf(r) == FlagsOf(l).(initPlayed := false)
    ensures SameBeats(l.tail, r.tail)
    ensures forall role :: HasRole(l, role) ==> HasRole(r, role) && ClipOf(r, role) == Clips.Pause(ClipOf(l, role))
  {
    MapClips(l, Clips.Pause).(initPlayed := false)
  }

  /** `on()`: re-enable the loop for later `play` calls. */
  function On(l: Loop): (r: Loop)
    ensures r.activated
    ensures FlagsOf(r).(activated := l.activated) == FlagsOf(l)
    ensures r.init == l.init && r.body == l.body && r.tail == l.tail
  {
    l.(activated := true)
  }

  /** `off()`: make later `play` calls do nothing (audio already sounding goes on). */
  function Off(l: Loop): (r: Loop)
    ensures !r.activated
    ensures FlagsOf(r).(activated := l.activated) == FlagsOf(l)
    ensures r.init == l.init && r.body == l.body && r.tail == l.tail
  {
    l.(activated := false)
  }

  /** `setMul(m)`: put gain `m`, unclamped, on every clip and on the loop. */
  function SetMul(l: Loop, m: real): (r: Loop)
    ensures FlagsOf(r) == FlagsOf(l).(mul := m)
    ensures SameBeats(l.tail, r.tail)
    ensures forall role :: HasRole(l, role) ==> HasRole(r, role) && ClipOf(r, role) == ClipOf(l, role).(mul := m)
  {
    MapClips(l, c => Clips.SetMul(c, m)).(mul := m)
  }

  /** `mute()`: gain 0 everywhere, nothing else changes. */
  function Mute(l: Loop): (r: Loop)
    ensures FlagsOf(r) == FlagsOf(l).(mul := 0.0)
    ensures SameBeats(l.tail, r.tail)
    ensures forall role :: HasRole(l, role) ==> HasRole(r, role) && ClipOf(r, role) == ClipOf(l, role).(mul := 0.0)
  {
    SetMul(l, 0.0)
  }

  /** `unmute()`: gain 1 everywhere, nothing else changes. */
  function Unmute(l: Loop): (r: Loop)
    ensures FlagsOf(r) == FlagsOf(l).(mul := 1.0)
    ensures SameBeats(l.tail, r.tail)
    ensures forall role :: HasRole(l, role) ==> HasRole(r, role) && ClipOf(r, role) == ClipOf(l, role).(mul := 1.0)
  {
    SetMul(l, 1.0)
  }

  /** Rewind every clip to position 0. */
  function RewindAll(l: Loop): (r: Loop)
    ensures FlagsOf(r) == FlagsOf(l)
    ensures SameBeats(l.tail, r.tail)
    ensures forall role :: HasRole(l, role) ==> HasRole(r, role) && ClipOf(r, role) == Clips.Rewind(ClipOf(l, role))
  {
    MapClips(l, Clips.Rewind)
  }

  /** `reset()`: prepare the loop for a new play session. */
  function Reset(l: Loop): (r: Loop)
    ensures IsReset(r)
    ensures r.defaultMul == l.defaultMul
    ensures SameBeats(l.tail, r.tail)
    // clips are rewound and re-gained, but neither stopped nor started
    ensures forall role :: HasRole(l, role) ==>
      && HasRole(r, role)
      && ClipOf(r, role).playing == ClipOf(l, role).playing
      && ClipOf(r, role).loaded == ClipOf(l, role).loaded
  {
    var rewound := On(RewindAll(l).(initPlayed := false, playTail := false));
    assert forall role :: HasRole(l, role) ==> HasRole(rewound, role) && ClipOf(rewound, role) == Clips.Rewind(ClipOf(l, role));
    SetMul(rewound, l.defaultMul)
  }

  /** Set the tail-mode flag, as the conductor's `toggleTail` does on each loop. */
  function SetTail(l: Loop, on: bool): (r: Loop)
    ensures r.playTail == on
    ensures FlagsOf(r).(playTail := l.playTail) == FlagsOf(l)
    ensures r.init == l.init && r.body == l.body && r.tail == l.tail
  {
    l.(playTail := on)
  }

  /** Two loops whose clips agree pairwise are equal once their flags and
      beats agree. */
  lemma LoopExt(a: Loop, b: Loop)
    requires FlagsOf(a) == FlagsOf(b)
    requires SameBeats(a.tail, b.tail)
    requires forall role :: HasRole(a, role) ==> HasRole(b, role) && ClipOf(a, role) == ClipOf(b, role)
    ensures a == b
  {
    assert ClipOf(a, Init) == ClipOf(b, Init);
    assert ClipOf(a, Body) == ClipOf(b, Body);
    forall i | 0 <= i < |a.tail|
      ensures a.tail[i] == b.tail[i]
    {
      assert ClipOf(a, Tail(i)) == ClipOf(b, Tail(i));
    }
  }

  /** `reset` is idempotent: a second reset changes nothing. */
  lemma ResetIdempotent(l: Loop)
    ensures Reset(Reset(l)) == Reset(l)
  {
    var r1 := Reset(l);
    var r2 := Reset(r1);
    forall role | HasRole(r1, role)
      ensures HasRole(r2, role) && ClipOf(r1, role) == ClipOf(r2, role)
    {
      assert ClipOf(r1, role).rewound && ClipOf(r1, role).mul == r1.defaultMul;
    }
    LoopExt(r1, r2);
  }

  /** `pause` is idempotent. */
  lemma PauseIdempotent(l: Loop)
    ensures Pause(Pause(l)) == Pause(l)
  {
    var p1 := Pause(l);
    var p2 := Pause(p1);
    LoopExt(p1, p2);
  }

  /** In tail mode a second `play` on the same beat sounds the same tail
      clip again and leaves the loop as the first one left it. */
  lemma PlayTailTwice(l: Loop, beat: int)
    requires l.playTail
    ensures Play(Play(l, beat).loop, beat) == Play(l, beat)
  {
    var p1 := Play(l, beat);
    var p2 := Play(p1.loop, beat);
    FirstTailFrame(l.tail, p1.loop.tail, beat);
    if l.activated && p1.played.Some? {
      var k := FirstTail(l.tail, beat).value;
      assert p1.played == Some(Tail(k));
      assert p2.played == Some(Tail(k));
      forall role | HasRole(p2.loop, role)
        ensures HasRole(p1.loop, role) && ClipOf(p2.loop, role) == ClipOf(p1.loop, role)
      {
      }
      LoopExt(p2.loop, p1.loop);
    }
  }

  /** The loop after `n` calls of `play(beat)` in a row. */
  function PlayRepeat(l: Loop, beat: int, n: nat): Loop
    decreases n
  {
    if n == 0 then l else PlayRepeat(Play(l, beat).loop, beat, n - 1)
  }

  /** A reset loop and a freshly constructed one carry the same flags. */
  lemma ResetMatchesConstructor(l: Loop)
    ensures FlagsOf(Reset(l)) == FlagsOf(NewLoop(l.init, l.body, l.tail, Some(l.defaultMul)))
  {
  }

  /** The first play after a reset sounds the attack; the next one the body. */
  lemma AttackThenBody(l: Loop, b1: int, b2: int)
    ensures Play(Reset(l), b1).played == Some(Init)
    ensures Play(Play(Reset(l), b1).loop, b2).played == Some(Body)
  {
    var r := Reset(l);
    assert r.activated && !r.playTail && !r.initPlayed;
  }

  /** After a pause, an active loop outside tail mode plays its attack again. */
  lemma PauseReplaysAttack(l: Loop, beat: int)
    requires l.activated && !l.playTail
    ensures Play(Pause(l), beat).played == Some(Init)
  {
  }

  /** A loop that is off plays nothing and stays as it is; turning it back on
      restores it exactly. */
  lemma OffSilencesOnRestores(l: Loop, beat: int)
    ensures Play(Off(l), beat) == PlayOutcome(Off(l), None)
    ensures l.activated ==> On(Off(l)) == l
  {
  }

  /** Playing never changes whether a loop is loaded. */
  lemma PlayKeepsLoaded(l: Loop, beat: int)
    ensures LoopLoaded(Play(l, beat).loop) == LoopLoaded(l)
  {
    var r := Play(l, beat);
    forall role | HasRole(l, role)
      ensures HasRole(r.loop, role) && ClipOf(r.loop, role).loaded == ClipOf(l, role).loaded
    {
    }
    assert ClipOf(r.loop, Init).loaded == l.init.loaded;
    assert ClipOf(r.loop, Body).loaded == l.body.loaded;
    forall i | 0 <= i < |l.tail|
      ensures r.loop.tail[i].audio.loaded == l.tail[i].audio.loaded
    {
      assert ClipOf(r.loop, Tail(i)).loaded == ClipOf(l, Tail(i)).loaded;
    }
  }

}

=== FILE: optional.dfy ===
/** The conventional Some/None datatype, used wherever the engine either
    finds something or falls through without a result. */
module Optional {

  datatype Option<+T> = None | Some(value: T)

}
